=== FILE: README.md ===
# RPG quest queues — a Dafny model

This project models the core of a small RPG tracker: characters accept quests
into a personal FIFO queue and complete them in arrival order. Completing a
quest grants its experience, and levels follow from experience. The model
covers:

- the process-wide registry of per-character queues (`PersonajeMisionQueue`);
- the global queue of pending quests (`MisionQueue`);
- the character and quest repositories, with the assignment join table;
- the two services that orchestrate them (`PersonajeService`, `MisionService`);
- the validation bounds of the request DTOs.

Everything is pure state. A `World` value holds the `personajes` and
`misiones` tables (maps from id to record), the `mision_personaje` rows (a
sequence), the queue registry (`map<int, seq<QuestId>>`) and the global
pending queue. Each operation is a function that returns its result together
with the new state. Every instance of the registry class shares one
dictionary, so the whole registry is a single value here.

Names: `Quest` is a *misión*, `Character` a *personaje*, and `Link` a
`MisionPersonaje` row. Status is a closed datatype (`Pending`, `InProgress`,
`Completed`). Its wire strings `"pendiente"`, `"en_progreso"` and
`"completada"` come from `QuestDto.WireName`, and `QuestDto.ParseStatus`
reads them back.

Modules, one per source component:

| module | file | models |
|---|---|---|
| `CharacterQueues` | character_queues.dfy | RPGqueue/personaje_mision_queue.py |
| `PendingQueue` | pending_queue.dfy | queue/misionFIFO.py |
| `CharacterRepository` | character_repository.dfy | repositories/personaje_repository.py |
| `QuestRepository` | quest_repository.dfy | repositories/mision_repository.py |
| `CharacterService` | character_service.dfy | services/personaje_service.py |
| `QuestService` | quest_service.dfy | services/mision_service.py |
| `QuestDto`, `CharacterDto` | quest_dto.dfy, character_dto.dfy | dto/mision_dto.py, dto/personaje_dto.py |
| `Entities` | entities.dfy | the record shapes of models/ and the response DTOs |
| `AppState`, `Consistency`, `Progression`, `Scenarios` | app_state.dfy, consistency.dfy, progression.dfy, scenarios.dfy | cross-operation properties |
| `Table`, `Seqs`, `Wrappers` | table.dfy, seqs.dfy, wrappers.dfy | table listing order, new ids, filtering, paging, `Option` |

Both repositories read and delete rows the same way, so `get_all`,
`get_by_id` and `delete` of each are the generic `Table.Page`, `Table.Get`
and `Table.Remove`. `CharacterRepository.GetAll`, `GetById` and `Delete`
(and their `QuestRepository` namesakes) are these functions applied to that
repository's table.

Choices the source leaves to its database:

- Listing order. The queries have no `ORDER BY`. The model lists rows in
  ascending primary key, which is the order SQLite scans a rowid table in.
- New ids. A new row gets one more than the largest id in use, or 1 in an
  empty table (`Table.FreshId`). This is SQLite's rule for an integer
  primary key without `AUTOINCREMENT`.
- Lookups on the registry. Every lookup creates the missing entry, as
  `get_queue` does. So `Peek`, `GetAll`, `IsEmpty`, `Size` and `Dequeue`
  return the new registry as well as their answer. Their contracts say that
  no queue's contents change (`SameQueues`).

Behaviours of the code that the model keeps, some of them surprising:

- Deleting a character removes only its record, and its queue stays
  (`CharacterService.DeleteCharacter`). Deleting a quest likewise removes
  only its record (`QuestService.DeleteMision`). In both cases the model
  keeps the assignment rows. The source only shows that no code removes
  them. The relationships declare no cascade, and both foreign-key columns
  of `mision_personaje` are NOT NULL. So with the ORM's default of setting
  the child key to null, deleting a record that has assignment rows would
  more likely fail at commit than leave the rows. That constraint is not
  modelled (see "## Left out").
- The join table has no uniqueness constraint. Pairs stay unique only
  because `QuestRepository.Assign` checks before it inserts.
- An in-progress quest is not guaranteed to sit in exactly one queue.
  `update_mision` can move it back to pending, and then a second character
  can accept it (`Consistency.UpdateMisionCanBreakConsistency`).
- In the model, a queued quest is not guaranteed to exist. The modelled
  `delete_mision` removes an accepted quest and leaves its id in the
  accepting character's queue (`Consistency.DeleteMisionCanBreakConsistency`).
  This is a property of the model, which leaves out the NOT NULL constraint
  on `mision_personaje.mision_id`. Every accepted quest has an assignment
  row. So in the running code the delete of a queued quest would more
  likely fail at commit and leave the queue consistent (see the first
  bullet above). Every operation other than these two keeps the agreement
  (`Consistency.*PreservesConsistency`).
- Completed is not a final status. `update_mision` writes any status it
  is given, so it can set a completed quest back to pending. The quest
  can then be accepted and completed again, and its reward is granted a
  second time (`Consistency.CompletedQuestCanReturn`). Accepting fails
  only while the status stays in progress or completed
  (`Consistency.CompletedIsNotReaccepted`).
- The rule level = experience / 100 + 1 is not an invariant, because an
  update can set level and experience freely
  (`CharacterRepository.UpdateMayBreakLevelRule`). What the code does keep:
  `add_experience` never lowers a level, and completing a quest keeps a
  matched character matched (`Progression.CompleteKeepsLevelRule`).
- Completion effects live in `complete_mission`. The completion handler
  that `update_mision` calls does nothing, so no experience is granted there.

## Model

| member | source | states |
|---|---|---|
| QuestDto.ParseStatus | dto/mision_dto.py:6-9 | a wire string is read as a status only if it is that status's name; any other string is rejected |
| QuestDto.StatusRoundTrip | dto/mision_dto.py:6-9 | every status survives the trip to its wire string and back, and no two statuses share a string |
| QuestDto.ValidateQuestUpdate | dto/mision_dto.py:19-23 | an update is accepted iff every present field is within the creation bounds and a present status is one of the three names; the accepted patch carries exactly the given fields |
| QuestDto.ValidQuestCreate | dto/mision_dto.py:11-17 | a creation request is valid iff its name has 3-50 characters, its description 10-200, and its reward is positive |
| CharacterDto.ValidCharacterCreate | dto/personaje_dto.py:4-9 | a creation request is valid iff name and class each have 2-50 characters |
| CharacterDto.ValidCharacterUpdate | dto/personaje_dto.py:11-15 | an update is valid iff a present name and a present class each have 2-50 characters; level and experience are unbounded |
| CharacterQueues.GetQueue | RPGqueue/personaje_mision_queue.py:17-21 | the first access creates an empty queue; no queue's contents change |
| CharacterQueues.Enqueue | RPGqueue/personaje_mision_queue.py:23-26 | the character's queue becomes old + [q]; every other character's queue is unchanged |
| CharacterQueues.Dequeue | RPGqueue/personaje_mision_queue.py:28-33 | an empty queue yields None and no contents change; otherwise the head is returned and the rest remains in order; other queues unchanged |
| CharacterQueues.Peek | RPGqueue/personaje_mision_queue.py:35-40 | returns the head, or None exactly when the queue is empty, and changes no queue |
| CharacterQueues.GetAll | RPGqueue/personaje_mision_queue.py:42-44 | returns the queue head first and changes no queue |
| CharacterQueues.IsEmpty | RPGqueue/personaje_mision_queue.py:46-48 | true exactly when the queue is empty; changes no queue |
| CharacterQueues.Size | RPGqueue/personaje_mision_queue.py:50-52 | the number of queued entries; changes no queue |
| CharacterQueues.Clear | RPGqueue/personaje_mision_queue.py:54-56 | the character's queue becomes empty; no other queue changes |
| CharacterQueues.UnknownCharacterHasEmptyQueue | RPGqueue/personaje_mision_queue.py:17-21 | an unknown character has size 0, is empty, lists [] and peeks and dequeues None |
| CharacterQueues.ObserversAgree | RPGqueue/personaje_mision_queue.py:35-52 | size equals the length of get_all, is_empty iff size is 0, peek answers what dequeue would, and the peeked item is the first listed |
| CharacterQueues.EnqueueAllAppends | RPGqueue/personaje_mision_queue.py:23-26 | enqueuing a batch appends it to that character's queue and changes no other queue |
| CharacterQueues.DequeueManyDrains | RPGqueue/personaje_mision_queue.py:28-33 | dequeuing once per entry returns the whole queue head first and leaves it empty |
| CharacterQueues.FifoOrder | RPGqueue/personaje_mision_queue.py:23-33 | entries come out in exactly the order they went in, after those already waiting |
| PendingQueue.Enqueue | queue/misionFIFO.py:10-13 | appends the record iff it is pending, otherwise leaves the queue unchanged; a queue of pending records stays all pending |
| PendingQueue.Dequeue | queue/misionFIFO.py:15-19 | None iff the queue is empty; otherwise the head, and head followed by the rest rebuilds the queue |
| PendingQueue.Peek | queue/misionFIFO.py:21-25 | returns what dequeue would return, without changing the queue |
| PendingQueue.IsEmpty | queue/misionFIFO.py:27-33 | is_empty holds iff size is 0 |
| PendingQueue.Clear | queue/misionFIFO.py:35-37 | leaves the queue empty |
| PendingQueue.Size | queue/misionFIFO.py:31-33 | zero exactly when nothing is waiting |
| PendingQueue.SizeCounts | queue/misionFIFO.py:10-37 | an admitted enqueue adds one to the size, a rejected one adds none, a dequeue from a non-empty queue takes one, and clear leaves zero |
| PendingQueue.EnqueueKeepsHead | queue/misionFIFO.py:10-19 | an enqueue never overtakes the head; into an empty queue, the record is next out iff it was pending |
| PendingQueue.LoadPendingMissions | queue/misionFIFO.py:39-43 | appends exactly the pending records of the input, in input order, and nothing else |
| Table.Page | repositories/personaje_repository.py:11-12 | offset/limit paging: at most limit rows, empty past the end, exactly min(limit, rows left) otherwise |
| Table.PagesTile | repositories/mision_repository.py:11-12 | consecutive pages read the listing without gaps or overlaps; a page from 0 that is wide enough returns every row |
| Table.PageListsTheStore | repositories/personaje_repository.py:11-12 | a page holds stored rows only; a page from 0 whose limit covers the table holds every stored row |
| Table.Get | repositories/personaje_repository.py:14-15 | a record exactly when the id is stored, and it is the stored one |
| Table.Remove | repositories/personaje_repository.py:37-44 | true iff the id was stored; afterwards it is gone and every other record is intact |
| Table.RemoveTwice | repositories/mision_repository.py:39-46 | a second delete of the same id returns false and changes nothing, and the id then reads as absent |
| Table.PagesFollowKeys | repositories/personaje_repository.py:11-12 | when every row carries its own key, the listing and each page are in strictly ascending key order, so no row appears twice |
| CharacterRepository.GetAll | repositories/personaje_repository.py:11-12 | the listing's rows from position skip on, min(limit, rows left) of them and none past the end; all stored characters, in ascending id order when each is filed under its own id |
| CharacterRepository.GetById | repositories/personaje_repository.py:14-15 | a record exactly when the id is stored; it is the stored one, and in a well-keyed store it carries the requested id |
| CharacterRepository.Delete | repositories/personaje_repository.py:37-44 | true iff the id was stored; the store loses exactly that id and stays well keyed |
| CharacterRepository.Create | repositories/personaje_repository.py:17-22 | a new record under an unused id at level 1 with 0 experience; the record is valid iff the request met the bounds of dto/personaje_dto.py |
| CharacterRepository.Update | repositories/personaje_repository.py:24-35 | None and no change for an unknown id; otherwise each field set in the update takes its value and every unset field keeps its own |
| CharacterRepository.AddExperience | repositories/personaje_repository.py:46-62 | None and no change for an unknown id; otherwise experience grows by the amount and the level becomes the larger of the old level and experience/100 + 1, so it never drops |
| CharacterRepository.GetMissions | repositories/personaje_repository.py:64-68 | exactly the assignment rows of the given character, each as often as it occurs in the table, and no other row |
| CharacterRepository.LevelExamples | repositories/personaje_repository.py:54-58 | experience 0 and 99 give level 1, 100 gives 2, 250 gives 3 |
| CharacterRepository.LevelFor | repositories/personaje_repository.py:54-56 | the level is the one whose 100-point band holds the experience: 100 * (level - 1) <= experience < 100 * level |
| CharacterRepository.LevelForMonotone | repositories/personaje_repository.py:54-58 | more experience never gives a lower level |
| CharacterRepository.AddExperienceKeepsLevelRule | repositories/personaje_repository.py:52-58 | after a non-negative grant, a character whose level matched its experience still matches |
| CharacterRepository.CreateThenGet | repositories/personaje_repository.py:17-22 | a created character reads back by its id, and deleting it restores the store |
| CharacterRepository.UpdateIdempotent | repositories/personaje_repository.py:24-35 | applying an update twice equals applying it once; an update that sets nothing changes nothing |
| CharacterRepository.UpdateKeepsValidCharacter | dto/personaje_dto.py:11-13 | an update within the name and class bounds keeps a valid character valid |
| CharacterRepository.UpdateMayBreakLevelRule | dto/personaje_dto.py:14-15 | level and experience are unbounded in an update, so one can break the level rule |
| QuestRepository.GetByStatus | repositories/mision_repository.py:17-18 | lists only stored quests with the status and every one of them, as often as it occurs in the table listing |
| QuestRepository.StatusListingsPartition | repositories/mision_repository.py:17-18 | a stored quest is listed under a status iff that is its own status |
| QuestRepository.StatusListingInIdOrder | repositories/mision_repository.py:17-18 | a status listing is in ascending id order, so no quest appears twice |
| QuestRepository.GetAll | repositories/mision_repository.py:11-12 | the listing's rows from position skip on, min(limit, rows left) of them and none past the end; all stored quests, in ascending id order when each is filed under its own id |
| QuestRepository.GetById | repositories/mision_repository.py:14-15 | a record exactly when the id is stored; it is the stored one, and in a well-keyed store it carries the requested id |
| QuestRepository.Delete | repositories/mision_repository.py:39-46 | true iff the id was stored; the store loses exactly that id and stays well keyed |
| QuestRepository.Create | repositories/mision_repository.py:20-25 | a new record under an unused id with the given fields, always pending; it is valid iff the request met the bounds of dto/mision_dto.py |
| QuestRepository.Update | repositories/mision_repository.py:27-37 | None and no change for an unknown id; otherwise only the fields present in the patch change, in that record only |
| QuestRepository.Assign | repositories/mision_repository.py:48-63 | an existing link is returned and the rows are unchanged; otherwise exactly that link is appended; no pair is ever duplicated |
| QuestRepository.AssignIdempotent | repositories/mision_repository.py:48-63 | assigning a pair twice is the same as assigning it once |
| QuestRepository.CreateThenGet | repositories/mision_repository.py:20-25 | a created quest reads back by its id; deleting it restores the store |
| QuestRepository.CreateIsListedPending | repositories/mision_repository.py:17-25 | a created quest is listed among the pending quests |
| QuestRepository.UpdateIdempotent | repositories/mision_repository.py:27-37 | applying a patch twice equals applying it once; an empty patch changes nothing |
| QuestRepository.UpdateKeepsValidQuest | dto/mision_dto.py:19-22 | a patch within the bounds keeps a valid quest valid |
| CharacterService.AcceptMission | services/personaje_service.py:40-65 | succeeds iff the character and quest exist and the quest is pending, and a failure changes nothing; success links the pair, reusing an existing row and otherwise appending exactly one, sets the quest in progress and appends it to that character's queue only |
| CharacterService.CompleteMission | services/personaje_service.py:67-86 | None and no change for an unknown character or an empty queue; otherwise the head leaves the queue and becomes completed. Its reward is added to the character's experience, and the level becomes the larger of the old level and experience / 100 + 1. Id, name and class are kept. The quest is returned |
| CharacterService.GetCharacterMissions | services/personaje_service.py:88-98 | [] for an unknown character; otherwise the queue head first, unchanged |
| CharacterService.DeleteCharacter | services/personaje_service.py:37-38 | removes only the character record; queues, assignments and quests are untouched |
| QuestService.CreateMision | services/mision_service.py:22-26 | stores a pending quest under a fresh id and appends it to the tail of the pending queue |
| QuestService.UpdateMision | services/mision_service.py:28-38 | None for an unknown id; otherwise each field set in the patch takes its value, and every unset field, the id and the start time keep theirs, in that quest only. Setting it completed grants no experience, because the completion handler is a no-op |
| QuestService.HandleCompletedMission | services/mision_service.py:53-57 | the completion handler changes nothing, so it grants no experience |
| QuestService.DeleteMision | services/mision_service.py:40-41 | true iff the quest was stored; only that record goes, and queues, assignment rows and the pending queue keep their entries |
| QuestService.AssignCharacterToMission | services/mision_service.py:43-45 | true exactly when the repository yields a link, which it always does; an existing row for the pair leaves the rows unchanged, otherwise exactly that row is appended; no status changes |
| QuestService.GetNextPendingMission | services/mision_service.py:47-51 | None on an empty pending queue; otherwise its head, removed, with no status change |
| Consistency.PendingIsNotQueued | services/personaje_service.py:49-51 | in a consistent world a pending quest is in nobody's queue |
| Consistency.AcceptPreservesConsistency | services/personaje_service.py:40-65 | accept keeps queued quests in progress, assigned to their queue's character, and queued once |
| Consistency.CompletePreservesConsistency | services/personaje_service.py:67-86 | complete keeps the same agreement |
| Consistency.GetCharacterMissionsPreservesConsistency | services/personaje_service.py:88-98 | listing keeps the agreement |
| Consistency.CreateMisionPreservesConsistency | services/mision_service.py:22-26 | creating a quest keeps the agreement |
| Consistency.AssignPreservesConsistency | services/mision_service.py:43-45 | assigning keeps the agreement |
| Consistency.GetNextPendingPreservesConsistency | services/mision_service.py:47-51 | popping the pending queue keeps the agreement |
| Consistency.DeleteCharacterPreservesConsistency | services/personaje_service.py:37-38 | deleting a character keeps the agreement |
| Consistency.AcceptQueuesOnce | services/personaje_service.py:49-63 | after an accept the quest sits once, at the tail of the accepting character's queue, and nowhere else |
| Consistency.AcceptTwiceIsNoOp | services/personaje_service.py:49-51 | right after an accept, accepting the same quest again, by anyone, fails and changes nothing |
| Consistency.CompletedIsNotReaccepted | services/personaje_service.py:49-51 | right after completion the returned quest is completed and accepting it fails; this lasts only while its status stays completed |
| Consistency.CompletedQuestCanReturn | services/mision_service.py:28-38 | resetting a completed quest to pending lets it be accepted and completed again, granting its reward twice (experience 300 from a 150-point quest), with the world consistent throughout |
| Consistency.CompleteRemovesTheHead | services/personaje_service.py:74-86 | the returned quest is the former head, now completed, and it is in no queue afterwards |
| Consistency.UpdateMisionCanBreakConsistency | services/mision_service.py:28-38 | resetting an in-progress quest to pending lets a second character accept it, so it sits in two queues |
| Consistency.DeleteMisionCanBreakConsistency | services/mision_service.py:40-41 | in the model, which leaves out the NOT NULL foreign key, deleting an accepted quest leaves its id queued with no stored quest behind it, so the agreement fails |
| Progression.CreateMisionKeepsQuestsValid | dto/mision_dto.py:11-17 | all stored quests stay within bounds after a create iff the request met them |
| Progression.UpdateMisionKeepsQuestsValid | dto/mision_dto.py:19-22 | a bounded update keeps all stored quests within bounds |
| Progression.AcceptKeepsQuestsValid | services/personaje_service.py:59-60 | the status change made by accept keeps quests within bounds |
| Progression.CompleteKeepsQuestsValid | services/personaje_service.py:79-80 | the status change made by complete keeps quests within bounds |
| Progression.CompleteKeepsLevelRule | services/personaje_service.py:82-83 | completing a quest raises experience strictly and keeps a matched character's level matched |
| Progression.CompleteTouchesOneCharacter | services/personaje_service.py:82-83 | no other character's record changes |
| Scenarios.AragornSlaysTheDragon | services/personaje_service.py:40-86 | Aragorn takes a 150-point quest: it goes in progress in his queue; completing it returns it completed, with experience 150, level 2 and an empty queue |
| Scenarios.TwoQuestsCompleteInAcceptOrder | services/personaje_service.py:63-75 | two quests accepted as q1 then q2 are completed as q1 then q2, and the queue ends empty |

## Left out

- HTTP routers, application start-up, database engine setup and the client
  script: they are wiring around the core. Two quirks in that wiring are not
  modelled. The quest router builds a new `MisionQueue` for every request, so
  in practice the global queue starts empty each time. The `/next-mission`
  route is declared after `/{mision_id}`.
- Commit, refresh, the session identity map and database errors are not
  modelled. Foreign-key and NOT NULL violations are not modelled either. Two
  examples: assigning a pair whose ids do not exist, and deleting a
  character or quest that still has assignment rows. The creation timestamp is
  an opaque `now` parameter.
- Assignment rows are modelled without their own surrogate `id` column.
- Concurrency and locking around the shared registry: the code has none, and
  the model is sequential.
- The import of `MisionQueue` from `RPGqueue.misionFIFO` does not match the
  file's location; the class is modelled as written in queue/misionFIFO.py.
- The thin service pass-throughs `get_all_personajes`, `get_personaje_by_id`,
  `create_personaje`, `update_personaje`, `get_all_misiones` and
  `get_mision_by_id` are not modelled separately. Each
  returns what the repository operation it calls returns, and those
  operations are modelled.
- `accept_mission`'s check `if not asignacion` can never fire, because the
  repository always yields a link. The model has no such branch.
- Field updates: `None` in an update means "not set". A field explicitly set
  to null is not modelled, and neither are arbitrary keys in the quest
  repository's update dictionary.
- Negative `skip` or `limit` values are not modelled: both are natural numbers.
- String lengths are counted in Dafny characters. Python counts code points.
- CharacterService.CompleteMission: queue entries are quest ids, as elsewhere
  in this model, but the source queues the in-memory quest object it loaded
  at acceptance. The model therefore differs from the source in three ways:
  - It returns the stored record as it is after completion: completed, with
    its current fields. The source always returns the dequeued
    acceptance-time object, which `MisionResponse.from_orm` turns into a
    response.
  - It grants the reward stored at completion time. The source grants the
    reward in that earlier copy.
  - If the quest was deleted in the meantime, the model drops the entry and
    returns None. The source still grants the copy's reward and returns the
    copy.

  The scenario rows ("returns it completed") rely on this choice.
- CharacterService.GetCharacterMissions: returns the queued quest ids, not
  response objects built from the queued copies.

=== FILE: app_state.dfy ===
/** The state the two services work over: both tables, the assignment rows,
    the per-character queue registry and the global pending queue. */
module AppState {

  import opened QuestDto
  import opened Entities
  import opened CharacterQueues
  import opened CharacterRepository
  import opened QuestRepository

  datatype World = World(
    characters: CharacterStore,
    quests: QuestStore,
    links: seq<Link>,
    queues: Registry,
    pending: seq<Quest>)

  /** `w'` differs from `w` at most by empty queue entries the registry created
      on lookup: every table, every queue's contents and the pending queue are
      as before. */
  ghost predicate Unchanged(w: World, w': World) {
    && w'.characters == w.characters
    && w'.quests == w.quests
    && w'.links == w.links
    && w'.pending == w.pending
    && SameQueues(w.queues, w'.queues)
  }

  /** Every queued quest still exists, is in progress, and is assigned to the
      character whose queue holds it. */
  predicate QueuedInProgress(w: World) {
    forall c, i | c in w.queues && 0 <= i < |w.queues[c]| ::
      && w.queues[c][i] in w.quests
      && w.quests[w.queues[c][i]].status == InProgress
      && Link(w.queues[c][i], c) in w.links
  }

  /** No quest id sits in two places of the registry: not twice in one queue,
      not in the queues of two characters. */
  predicate QueuesExclusive(reg: Registry) {
    forall c1, c2, i, j |
      && c1 in reg && c2 in reg
      && 0 <= i < |reg[c1]| && 0 <= j < |reg[c2]|
      && reg[c1][i] == reg[c2][j]
      :: c1 == c2 && i == j
  }

  /** The agreement between stored quest status, assignments and queue
      membership that the orchestration keeps. */
  predicate Consistent(w: World) {
    && LinksUnique(w.links)
    && QueuedInProgress(w)
    && QueuesExclusive(w.queues)
  }
}

=== FILE: character_dto.dfy ===
/** Character request shapes and their validation bounds (dto/personaje_dto.py). */
module CharacterDto {

  import opened Wrappers

  const TextMin := 2
  const TextMax := 50

  predicate TextOk(s: string) {
    TextMin <= |s| <= TextMax
  }

  /** `PersonajeCreate`: name and class tag. */
  datatype CharacterCreate = CharacterCreate(name: string, classTag: string)

  /** The field bounds of `PersonajeBase`. */
  predicate ValidCharacterCreate(c: CharacterCreate) {
    TextOk(c.name) && TextOk(c.classTag)
  }

  /** `PersonajeUpdate`: the fields that were set (`None` = not set). Level and
      experience may be set to any integer. */
  datatype CharacterUpdate = CharacterUpdate(
    name: Option<string>,
    classTag: Option<string>,
    level: Option<int>,
    experience: Option<int>)

  /** Present name and class tag respect the creation bounds; level and
      experience carry no bound. */
  predicate ValidCharacterUpdate(u: CharacterUpdate) {
    && (u.name.Some? ==> TextOk(u.name.value))
    && (u.classTag.Some? ==> TextOk(u.classTag.value))
  }
}

=== FILE: character_queues.dfy ===
/** The process-wide registry of per-character FIFO quest queues
    (RPGqueue/personaje_mision_queue.py). Every instance of the registry class
    shares one dictionary, so the whole registry is one value here: a map from
    character id to the queue of quest ids, head first. A character without an
    entry has an empty queue; every operation that looks a queue up first
    creates the missing entry, as `get_queue` does. */
module CharacterQueues {

  import opened Wrappers
  import opened Entities

  type Registry = map<CharacterId, seq<QuestId>>

  /** The queue of character `c`: the stored one, or empty when there is none. */
  function Queue(reg: Registry, c: CharacterId): (r: seq<QuestId>) {
    if c in reg then reg[c] else []
  }

  /** Both registries hold the same queue for every character. */
  ghost predicate SameQueues(a: Registry, b: Registry) {
    forall c :: Queue(a, c) == Queue(b, c)
  }

  /** `get_queue`: creates an empty queue for `c` on first access. No queue's
      contents change; only the key set may grow by `c`. */
  function GetQueue(reg: Registry, c: CharacterId): (r: Registry)
    ensures c in r && r.Keys == reg.Keys + {c}
    ensures SameQueues(reg, r)
  {
    if c in reg then reg else reg[c := []]
  }

  /** `enqueue`: appends `q` at the tail of `c`'s queue; no other queue changes. */
  function Enqueue(reg: Registry, c: CharacterId, q: QuestId): (r: Registry)
    ensures c in r && r.Keys == reg.Keys + {c}
    ensures Queue(r, c) == Queue(reg, c) + [q]
    ensures forall d | d != c :: Queue(r, d) == Queue(reg, d)
  {
    var g := GetQueue(reg, c);
    g[c := g[c] + [q]]
  }

  /** `dequeue`: nothing from an empty queue, and no queue changes; otherwise
      the head, leaving the rest of `c`'s queue in order. */
  function Dequeue(reg: Registry, c: CharacterId): (r: (Option<QuestId>, Registry))
    ensures c in r.1 && r.1.Keys == reg.Keys + {c}
    ensures Queue(reg, c) == [] ==> r.0 == None && SameQueues(reg, r.1)
    ensures Queue(reg, c) != [] ==> r.0 == Some(Queue(reg, c)[0]) && Queue(r.1, c) == Queue(reg, c)[1..]
    ensures forall d | d != c :: Queue(r.1, d) == Queue(reg, d)
  {
    var g := GetQueue(reg, c);
    if |g[c]| == 0 then (None, g)
    else (Some(g[c][0]), g[c := g[c][1..]])
  }

  /** `peek`: the head, or nothing; no queue changes. */
  function Peek(reg: Registry, c: CharacterId): (r: (Option<QuestId>, Registry))
    ensures r.0.None? <==> Queue(reg, c) == []
    ensures r.0.Some? ==> r.0.value == Queue(reg, c)[0]
    ensures SameQueues(reg, r.1)
  {
    var g := GetQueue(reg, c);
    if |g[c]| == 0 then (None, g) else (Some(g[c][0]), g)
  }

  /** `get_all`: a copy of `c`'s queue, head first; no queue changes. */
  function GetAll(reg: Registry, c: CharacterId): (r: (seq<QuestId>, Registry))
    ensures r.0 == Queue(reg, c)
    ensures SameQueues(reg, r.1)
  {
    var g := GetQueue(reg, c);
    (g[c], g)
  }

  /** `is_empty`. */
  function IsEmpty(reg: Registry, c: CharacterId): (r: (bool, Registry))
    ensures r.0 <==> Queue(reg, c) == []
    ensures SameQueues(reg, r.1)
  {
    var g := GetQueue(reg, c);
    (|g[c]| == 0, g)
  }

  /** `size`. */
  function Size(reg: Registry, c: CharacterId): (r: (nat, Registry))
    ensures r.0 == |Queue(reg, c)|
    ensures SameQueues(reg, r.1)
  {
    var g := GetQueue(reg, c);
    (|g[c]|, g)
  }

  /** `clear`: empties `c`'s queue and no other. */
  function Clear(reg: Registry, c: CharacterId): (r: Registry)
    ensures c in r && r.Keys == reg.Keys + {c}
    ensures Queue(r, c) == []
    ensures forall d | d != c :: Queue(r, d) == Queue(reg, d)
  {
    reg[c := []]
  }

  /** An unknown character looks like one with an empty queue. */
  lemma UnknownCharacterHasEmptyQueue(reg: Registry, c: CharacterId)
    requires c !in reg
    ensures Size(reg, c).0 == 0
    ensures IsEmpty(reg, c).0
    ensures GetAll(reg, c).0 == []
    ensures Peek(reg, c).0 == None
    ensures Dequeue(reg, c).0 == None
  {
  }

  /** The observers agree with one another. */
  lemma ObserversAgree(reg: Registry, c: CharacterId)
    ensures Size(reg, c).0 == |GetAll(reg, c).0|
    ensures IsEmpty(reg, c).0 <==> Size(reg, c).0 == 0
    ensures Peek(reg, c).0 == Dequeue(reg, c).0
    ensures Peek(reg, c).0.Some? ==> Peek(reg, c).0.value == GetAll(reg, c).0[0]
  {
  }

  /** Appends the quests of `qs` one by one. */
  function EnqueueAll(reg: Registry, c: CharacterId, qs: seq<QuestId>): (r: Registry)
    decreases |qs|
  {
    if qs == [] then reg else EnqueueAll(Enqueue(reg, c, qs[0]), c, qs[1..])
  }

  /** Dequeues `n` times and collects what came out, in order. */
  function DequeueMany(reg: Registry, c: CharacterId, n: nat): (r: (seq<QuestId>, Registry))
    decreases n
  {
    if n == 0 then ([], reg)
    else
      var (head, reg') := Dequeue(reg, c);
      var (rest, reg'') := DequeueMany(reg', c, n - 1);
      (if head.Some? then [head.value] + rest else rest, reg'')
  }

  /** Enqueuing a batch appends it to `c`'s queue and touches no other. */
  lemma {:induction false} EnqueueAllAppends(reg: Registry, c: CharacterId, qs: seq<QuestId>)
    ensures Queue(EnqueueAll(reg, c, qs), c) == Queue(reg, c) + qs
    ensures forall d | d != c :: Queue(EnqueueAll(reg, c, qs), d) == Queue(reg, d)
    decreases |qs|
  {
    if qs != [] {
      var reg' := Enqueue(reg, c, qs[0]);
      EnqueueAllAppends(reg', c, qs[1..]);
      assert Queue(reg, c) + [qs[0]] + qs[1..] == Queue(reg, c) + qs;
    }
  }

  /** Dequeuing as many times as there are entries returns the whole queue,
      head first, and leaves it empty. */
  lemma {:induction false} DequeueManyDrains(reg: Registry, c: CharacterId)
    ensures DequeueMany(reg, c, |Queue(reg, c)|).0 == Queue(reg, c)
    ensures Queue(DequeueMany(reg, c, |Queue(reg, c)|).1, c) == []
    decreases |Queue(reg, c)|
  {
    if |Queue(reg, c)| > 0 {
      var (head, reg') := Dequeue(reg, c);
      assert |Queue(reg', c)| == |Queue(reg, c)| - 1;
      DequeueManyDrains(reg', c);
      assert [Queue(reg, c)[0]] + Queue(reg, c)[1..] == Queue(reg, c);
    }
  }

  /** FIFO order: quests come out of a character's queue in exactly the order
      they went in, after whatever was already waiting. */
  lemma FifoOrder(reg: Registry, c: CharacterId, qs: seq<QuestId>)
    ensures DequeueMany(EnqueueAll(reg, c, qs), c, |Queue(reg, c)| + |qs|).0 == Queue(reg, c) + qs
  {
    EnqueueAllAppends(reg, c, qs);
    DequeueManyDrains(EnqueueAll(reg, c, qs), c);
  }
}

=== FILE: character_repository.dfy ===
/** The character store (repositories/personaje_repository.py): the
    `personajes` table as a map from id to record, plus the level rule applied
    when experience is granted. */
module CharacterRepository {

  import opened Wrappers
  import opened Entities
  import opened CharacterDto
  import Table
  import Seqs

  type CharacterStore = map<CharacterId, Character>

  /** The primary key of a character row. */
  function IdOf(ch: Character): (r: CharacterId) {
    ch.id
  }

  /** Every row is stored under its own id. */
  predicate WellKeyed(s: CharacterStore) {
    Table.WellKeyed(s, IdOf)
  }

  /** `get_all(skip, limit)`: a page of the id-ordered listing (`Table.Page`). */
  function GetAll(s: CharacterStore, skip: nat, limit: nat): (r: seq<Character>)
    ensures |r| <= limit
    ensures skip >= |s| ==> r == []
    ensures skip < |s| ==> |r| == Seqs.MinNat(limit, |s| - skip)
    ensures forall i | 0 <= i < |r| :: skip + i < |s| && r[i] == Table.Rows(s)[skip + i]
    ensures forall v | v in r :: v in s.Values
    ensures WellKeyed(s) ==> forall i, j | 0 <= i < j < |r| :: r[i].id < r[j].id
  {
    Table.PageListsTheStore(s, skip, limit);
    Table.PagesFollowKeys(s, IdOf, skip, limit);
    Table.Page(s, skip, limit)
  }

  /** `get_by_id` (`Table.Get`): the character filed under `id`, which
      carries that id. */
  function GetById(s: CharacterStore, id: CharacterId): (r: Option<Character>)
    ensures r.Some? <==> id in s
    ensures r.Some? ==> r.value == s[id]
    ensures WellKeyed(s) && r.Some? ==> r.value.id == id
  {
    Table.Get(s, id)
  }

  /** `create`: a new character under a fresh id, at level 1 with no
      experience (the column defaults), carrying the given name and class. */
  function Create(s: CharacterStore, c: CharacterCreate): (r: (Character, CharacterStore))
    ensures r.0.id !in s && r.1 == s[r.0.id := r.0]
    ensures r.0.name == c.name && r.0.classTag == c.classTag
    ensures r.0.level == 1 && r.0.experience == 0
    ensures WellKeyed(s) ==> WellKeyed(r.1)
    ensures ValidCharacter(r.0) <==> ValidCharacterCreate(c)
  {
    var id := Table.FreshId(s.Keys);
    var ch := Character(id, c.name, c.classTag, 1, 0);
    (ch, s[id := ch])
  }

  /** The record with the set fields of `u` written over it. */
  function Apply(ch: Character, u: CharacterUpdate): (r: Character) {
    ch.(
      name := if u.name.Some? then u.name.value else ch.name,
      classTag := if u.classTag.Some? then u.classTag.value else ch.classTag,
      level := if u.level.Some? then u.level.value else ch.level,
      experience := if u.experience.Some? then u.experience.value else ch.experience)
  }

  /** `update`: nothing for an unknown id and no change; otherwise only the
      fields set in `u` change, only in that record. */
  function Update(s: CharacterStore, id: CharacterId, u: CharacterUpdate): (r: (Option<Character>, CharacterStore))
    ensures id !in s ==> r == (None, s)
    ensures id in s ==> r.0.Some? && r.1 == s[id := r.0.value] && r.0.value.id == s[id].id
    ensures id in s && u.name.None? ==> r.0.value.name == s[id].name
    ensures id in s && u.name.Some? ==> r.0.value.name == u.name.value
    ensures id in s && u.classTag.None? ==> r.0.value.classTag == s[id].classTag
    ensures id in s && u.classTag.Some? ==> r.0.value.classTag == u.classTag.value
    ensures id in s && u.level.None? ==> r.0.value.level == s[id].level
    ensures id in s && u.level.Some? ==> r.0.value.level == u.level.value
    ensures id in s && u.experience.None? ==> r.0.value.experience == s[id].experience
    ensures id in s && u.experience.Some? ==> r.0.value.experience == u.experience.value
    ensures WellKeyed(s) ==> WellKeyed(r.1)
  {
    if id !in s then (None, s)
    else
      var ch := Apply(s[id], u);
      (Some(ch), s[id := ch])
  }

  /** `delete` (`Table.Remove`). */
  function Delete(s: CharacterStore, id: CharacterId): (r: (bool, CharacterStore))
    ensures r.0 <==> id in s
    ensures r.1 == s - {id}
    ensures WellKeyed(s) ==> WellKeyed(r.1)
  {
    Table.Remove(s, id)
  }

  /** The level that goes with an amount of experience: one level per full 100
      points, starting at 1. Python's `//` floors; for the positive divisor
      100 Dafny's `/` gives the same quotient, negative amounts included. */
  function LevelFor(experience: int): (r: int)
    ensures 100 * (r - 1) <= experience < 100 * r
  {
    experience / 100 + 1
  }

  /** A character whose level is the one its experience gives. */
  predicate LevelMatches(ch: Character) {
    ch.level == LevelFor(ch.experience)
  }

  /** `add_experience`: nothing for an unknown id and no change; otherwise the
      experience grows by `amount` and the level becomes the larger of the old
      level and the one the new experience gives, so it never drops. */
  function AddExperience(s: CharacterStore, id: CharacterId, amount: int): (r: (Option<Character>, CharacterStore))
    ensures id !in s ==> r == (None, s)
    ensures id in s ==> r.0.Some? && r.1 == s[id := r.0.value]
    ensures id in s ==> r.0.value.experience == s[id].experience + amount
    ensures id in s ==> r.0.value.level >= s[id].level
    ensures id in s ==> r.0.value.level >= LevelFor(r.0.value.experience)
    ensures id in s ==> r.0.value.level == s[id].level || r.0.value.level == LevelFor(r.0.value.experience)
    ensures id in s ==> r.0.value.id == s[id].id && r.0.value.name == s[id].name && r.0.value.classTag == s[id].classTag
    ensures WellKeyed(s) ==> WellKeyed(r.1)
  {
    if id !in s then (None, s)
    else
      var ch := s[id];
      var experience := ch.experience + amount;
      var newLevel := LevelFor(experience);
      var ch' := ch.(experience := experience, level := if newLevel > ch.level then newLevel else ch.level);
      (Some(ch'), s[id := ch'])
  }

  /** `get_misiones`: the assignment rows of character `c`, and only those, in
      table order. */
  function GetMissions(links: seq<Link>, c: CharacterId): (r: seq<Link>)
    ensures forall l | l in r :: l in links && l.characterId == c
    ensures forall l | l in links && l.characterId == c :: l in r
    ensures forall l | l in links :: multiset(r)[l] == if l.characterId == c then multiset(links)[l] else 0
    ensures |r| <= |links|
  {
    Seqs.FilterCounts(links, (l: Link) => l.characterId == c);
    Seqs.Filter(links, (l: Link) => l.characterId == c)
  }

  /** The worked values of the level rule. */
  lemma LevelExamples()
    ensures LevelFor(0) == 1 && LevelFor(99) == 1 && LevelFor(100) == 2 && LevelFor(250) == 3
  {
  }

  /** The level rule never lowers a level as experience grows. */
  lemma LevelForMonotone(a: int, b: int)
    requires a <= b
    ensures LevelFor(a) <= LevelFor(b)
  {
  }

  /** Granting a non-negative amount to a character whose level matches its
      experience keeps the two matched. */
  lemma AddExperienceKeepsLevelRule(s: CharacterStore, id: CharacterId, amount: int)
    requires id in s && LevelMatches(s[id]) && amount >= 0
    ensures LevelMatches(AddExperience(s, id, amount).0.value)
  {
  }

  /** Creating a character and reading it back by its id gives it back;
      deleting it again restores the store. */
  lemma CreateThenGet(s: CharacterStore, c: CharacterCreate, ch: Character, s': CharacterStore)
    requires (ch, s') == Create(s, c)
    ensures GetById(s', ch.id) == Some(ch)
    ensures Delete(s', ch.id) == (true, s)
  {
    Table.RemoveAfterInsert(s, ch.id, ch);
  }

  /** Applying the same update twice is the same as applying it once, and an
      update that sets nothing changes nothing. */
  lemma UpdateIdempotent(s: CharacterStore, id: CharacterId, u: CharacterUpdate)
    ensures Update(Update(s, id, u).1, id, u) == Update(s, id, u)
    ensures Update(s, id, CharacterUpdate(None, None, None, None)).1 == s
  {
    if id in s {
      var ch := Apply(s[id], u);
      var s1 := s[id := ch];
      assert Apply(ch, u) == ch;
      assert Update(s1, id, u) == (Some(ch), s1[id := ch]);
      assert s1[id := ch] == s1;
      assert s[id := s[id]] == s;
    }
  }

  /** An update that passed validation keeps the stored name and class within
      their bounds. */
  lemma UpdateKeepsValidCharacter(s: CharacterStore, id: CharacterId, u: CharacterUpdate)
    requires id in s && ValidCharacter(s[id]) && ValidCharacterUpdate(u)
    ensures ValidCharacter(Update(s, id, u).0.value)
  {
  }

  /** Level and experience can be set independently by an update, so the
      level rule is not an invariant of the store. */
  lemma UpdateMayBreakLevelRule()
    ensures var s := map[1 := Character(1, "Aragorn", "Ranger", 1, 0)];
            LevelMatches(s[1]) && !LevelMatches(Update(s, 1, CharacterUpdate(None, None, Some(7), None)).0.value)
  {
  }
}

=== FILE: character_service.dfy ===
/** The character-side orchestration (services/personaje_service.py): taking
    on a quest, completing the next one, listing the queue, deleting a
    character. */
module CharacterService {

  import opened Wrappers
  import opened QuestDto
  import opened Entities
  import opened CharacterQueues
  import CharacterRepository
  import QuestRepository
  import opened AppState

  /** `accept_mission`: fails without touching anything unless the character
      and the quest exist and the quest is pending. On success the pair is
      linked (reusing an existing link), the quest goes in progress, it joins
      the tail of that character's queue and of no other, and nothing else
      changes. */
  function AcceptMission(w: World, c: CharacterId, q: QuestId): (r: (bool, World))
    ensures r.0 <==> c in w.characters && q in w.quests && w.quests[q].status == Pending
    ensures !r.0 ==> r.1 == w
    ensures r.0 ==> && Link(q, c) in r.1.links
                    && (Link(q, c) in w.links ==> r.1.links == w.links)
                    && (Link(q, c) !in w.links ==> r.1.links == w.links + [Link(q, c)])
                    && r.1.quests == w.quests[q := w.quests[q].(status := InProgress)]
                    && Queue(r.1.queues, c) == Queue(w.queues, c) + [q]
                    && (forall d | d != c :: Queue(r.1.queues, d) == Queue(w.queues, d))
                    && r.1.characters == w.characters
                    && r.1.pending == w.pending
  {
    var character := CharacterRepository.GetById(w.characters, c);
    var quest := QuestRepository.GetById(w.quests, q);
    if character.None? || quest.None? then (false, w)
    else if quest.value.status != Pending then (false, w)
    else
      var (_, links) := QuestRepository.Assign(w.links, q, c);
      var (_, quests) := QuestRepository.Update(w.quests, q, StatusPatch(InProgress));
      (true, w.(links := links, quests := quests, queues := Enqueue(w.queues, c, q)))
  }

  /** `complete_mission`: nothing, and no change, for an unknown character or
      an empty queue. Otherwise the head of the character's queue leaves it;
      if that quest is still stored it becomes completed, its reward is
      granted to the character through the level rule, and it is returned. */
  function CompleteMission(w: World, c: CharacterId): (r: (Option<Quest>, World))
    ensures c !in w.characters ==> r == (None, w)
    ensures c in w.characters && Queue(w.queues, c) == [] ==> r.0 == None && Unchanged(w, r.1)
    ensures c in w.characters && Queue(w.queues, c) != [] ==>
      var h := Queue(w.queues, c)[0];
      && Queue(r.1.queues, c) == Queue(w.queues, c)[1..]
      && (forall d | d != c :: Queue(r.1.queues, d) == Queue(w.queues, d))
      && r.1.links == w.links && r.1.pending == w.pending
      && (h !in w.quests ==> r.0 == None && r.1.quests == w.quests && r.1.characters == w.characters)
      && (h in w.quests ==>
            && r.1.quests == w.quests[h := w.quests[h].(status := Completed)]
            && r.0 == Some(r.1.quests[h])
            && c in r.1.characters
            && r.1.characters == w.characters[c := r.1.characters[c]]
            && r.1.characters[c].experience == w.characters[c].experience + w.quests[h].experience
            && r.1.characters[c].level >= w.characters[c].level
            && r.1.characters[c].level >= CharacterRepository.LevelFor(r.1.characters[c].experience)
            && (r.1.characters[c].level == w.characters[c].level
                || r.1.characters[c].level == CharacterRepository.LevelFor(r.1.characters[c].experience))
            && r.1.characters[c].id == w.characters[c].id
            && r.1.characters[c].name == w.characters[c].name
            && r.1.characters[c].classTag == w.characters[c].classTag)
  {
    if c !in w.characters then (None, w)
    else
      var (head, queues) := Dequeue(w.queues, c);
      if head.None? then (None, w.(queues := queues))
      else
        var (done, quests) := QuestRepository.Update(w.quests, head.value, StatusPatch(Completed));
        if done.None? then (None, w.(queues := queues))
        else
          var (_, characters) := CharacterRepository.AddExperience(w.characters, c, done.value.experience);
          (Some(done.value), w.(characters := characters, quests := quests, queues := queues))
  }

  /** `get_personaje_misiones`: an empty list for an unknown character;
      otherwise the character's queue, head first, left as it was. */
  function GetCharacterMissions(w: World, c: CharacterId): (r: (seq<QuestId>, World))
    ensures c !in w.characters ==> r == ([], w)
    ensures c in w.characters ==> r.0 == Queue(w.queues, c) && Unchanged(w, r.1)
  {
    if c !in w.characters then ([], w)
    else
      var (all, queues) := GetAll(w.queues, c);
      (all, w.(queues := queues))
  }

  /** `delete_personaje`: removes the character record only; its queue and
      its assignment rows stay where they are. */
  function DeleteCharacter(w: World, c: CharacterId): (r: (bool, World))
    ensures r.0 <==> c in w.characters
    ensures r.1.characters.Keys == w.characters.Keys - {c}
    ensures forall k | k in r.1.characters :: r.1.characters[k] == w.characters[k]
    ensures r.1.queues == w.queues && r.1.links == w.links
    ensures r.1.quests == w.quests && r.1.pending == w.pending
  {
    var (found, characters) := CharacterRepository.Delete(w.characters, c);
    (found, w.(characters := characters))
  }
}

=== FILE: consistency.dfy ===
/** What the orchestration guarantees across calls. Every operation except
    `update_mision` and `delete_mision` keeps the world consistent: queued
    quests are in progress, assigned, and queued once. While a quest's
    status stays in progress or completed, accepting it fails. Neither
    status is final, though: `update_mision` can set any status. The
    quest-side update and, in this model, the quest-side delete are the two
    operations that can break the agreement. */
module Consistency {

  import opened Wrappers
  import opened QuestDto
  import opened Entities
  import opened CharacterQueues
  import opened AppState
  import opened CharacterService
  import opened QuestService

  /** A pending quest is in nobody's queue. */
  lemma PendingIsNotQueued(w: World, q: QuestId)
    requires Consistent(w) && q in w.quests && w.quests[q].status == Pending
    ensures forall d, i | d in w.queues && 0 <= i < |w.queues[d]| :: w.queues[d][i] != q
  {
  }

  /** `accept_mission` keeps the world consistent. */
  lemma AcceptPreservesConsistency(w: World, c: CharacterId, q: QuestId)
    requires Consistent(w)
    ensures Consistent(AcceptMission(w, c, q).1)
  {
  }

  /** `complete_mission` keeps the world consistent. */
  lemma CompletePreservesConsistency(w: World, c: CharacterId)
    requires Consistent(w)
    ensures Consistent(CompleteMission(w, c).1)
  {
  }

  /** `get_personaje_misiones` keeps the world consistent. */
  lemma GetCharacterMissionsPreservesConsistency(w: World, c: CharacterId)
    requires Consistent(w)
    ensures Consistent(GetCharacterMissions(w, c).1)
  {
  }

  /** `create_mision` keeps the world consistent. */
  lemma CreateMisionPreservesConsistency(w: World, c: QuestCreate, now: Timestamp)
    requires Consistent(w)
    ensures Consistent(CreateMision(w, c, now).1)
  {
  }

  /** `assign_personaje_to_mision` keeps the world consistent. */
  lemma AssignPreservesConsistency(w: World, m: QuestId, p: CharacterId)
    requires Consistent(w)
    ensures Consistent(AssignCharacterToMission(w, m, p).1)
  {
  }

  /** `get_next_pending_mission` keeps the world consistent. */
  lemma GetNextPendingPreservesConsistency(w: World)
    requires Consistent(w)
    ensures Consistent(GetNextPendingMission(w).1)
  {
  }

  /** `delete_personaje` keeps the world consistent. */
  lemma DeleteCharacterPreservesConsistency(w: World, c: CharacterId)
    requires Consistent(w)
    ensures Consistent(DeleteCharacter(w, c).1)
  {
  }

  /** In a consistent world a successful accept puts the quest in exactly one
      place of the registry: once, at the tail of the accepting character's
      queue. */
  lemma AcceptQueuesOnce(w: World, c: CharacterId, q: QuestId)
    requires Consistent(w) && AcceptMission(w, c, q).0
    ensures var reg' := AcceptMission(w, c, q).1.queues;
      forall d, i | d in reg' && 0 <= i < |reg'[d]| && reg'[d][i] == q :: d == c && i == |reg'[c]| - 1
  {
  }

  /** Right after an accept, accepting the same quest again, by the same or
      any other character, fails and changes nothing. */
  lemma AcceptTwiceIsNoOp(w: World, c: CharacterId, c2: CharacterId, q: QuestId)
    requires AcceptMission(w, c, q).0
    ensures AcceptMission(AcceptMission(w, c, q).1, c2, q) == (false, AcceptMission(w, c, q).1)
  {
  }

  /** Right after completion the returned quest is completed, and accepting
      it fails. It stays unacceptable as long as its status stays completed;
      `CompletedQuestCanReturn` shows that `update_mision` can lift that. */
  lemma CompletedIsNotReaccepted(w: World, c: CharacterId, c2: CharacterId)
    requires CompleteMission(w, c).0.Some?
    ensures var (done, w') := CompleteMission(w, c);
      var h := Queue(w.queues, c)[0];
      done == Some(w'.quests[h]) && done.value.status == Completed && !AcceptMission(w', c2, h).0
  {
  }

  /** The completed quest is the one at the head of the queue, and it leaves
      the queue: it is in no queue afterwards. */
  lemma CompleteRemovesTheHead(w: World, c: CharacterId)
    requires Consistent(w) && c in w.characters && Queue(w.queues, c) != []
    ensures var h := Queue(w.queues, c)[0];
      var w' := CompleteMission(w, c).1;
      CompleteMission(w, c).0 == Some(w'.quests[h])
      && w'.quests[h].status == Completed
      && forall d | d in w'.queues :: h !in w'.queues[d]
  {
  }

  /** The agreement is not closed under `update_mision`: moving an in-progress
      quest back to pending lets a second character accept it, after which it
      sits in two queues. */
  lemma UpdateMisionCanBreakConsistency()
    ensures
      var w0 := World(
        map[1 := Character(1, "Aragorn", "Ranger", 1, 0), 2 := Character(2, "Legolas", "Archer", 1, 0)],
        map[7 := Quest(7, "Slay Dragon", "Defeat the dragon", 150, Pending, 0)],
        [], map[], []);
      var w1 := AcceptMission(w0, 1, 7).1;
      var w2 := UpdateMision(w1, 7, StatusPatch(Pending)).1;
      var w3 := AcceptMission(w2, 2, 7).1;
      Consistent(w0) && Consistent(w1) && !Consistent(w3)
  {
    var w0 := World(
      map[1 := Character(1, "Aragorn", "Ranger", 1, 0), 2 := Character(2, "Legolas", "Archer", 1, 0)],
      map[7 := Quest(7, "Slay Dragon", "Defeat the dragon", 150, Pending, 0)],
      [], map[], []);
    AcceptPreservesConsistency(w0, 1, 7);
    var w1 := AcceptMission(w0, 1, 7).1;
    var w2 := UpdateMision(w1, 7, StatusPatch(Pending)).1;
    var w3 := AcceptMission(w2, 2, 7).1;
    assert w3.queues[1][0] == 7 && w3.queues[2][0] == 7;
  }

  /** In this model the agreement is not closed under `delete_mision`
      either: deleting an accepted quest leaves its id in the accepting
      character's queue with no stored quest behind it. The model leaves out
      the NOT NULL foreign key of the assignment row that every accepted
      quest has. With that constraint, the running code's delete would more
      likely fail at commit instead. */
  lemma DeleteMisionCanBreakConsistency()
    ensures
      var w0 := World(
        map[1 := Character(1, "Aragorn", "Ranger", 1, 0)],
        map[7 := Quest(7, "Slay Dragon", "Defeat the dragon", 150, Pending, 0)],
        [], map[], []);
      var w1 := AcceptMission(w0, 1, 7).1;
      var (deleted, w2) := DeleteMision(w1, 7);
      Consistent(w0) && Consistent(w1) && deleted && !Consistent(w2)
  {
    var w0 := World(
      map[1 := Character(1, "Aragorn", "Ranger", 1, 0)],
      map[7 := Quest(7, "Slay Dragon", "Defeat the dragon", 150, Pending, 0)],
      [], map[], []);
    AcceptPreservesConsistency(w0, 1, 7);
    var w1 := AcceptMission(w0, 1, 7).1;
    var w2 := DeleteMision(w1, 7).1;
    assert w2.queues[1][0] == 7 && 7 !in w2.quests;
  }

  /** Completed is not a final status. `update_mision` can set a completed
      quest back to pending, after which it can be accepted and completed
      again, and its reward is granted a second time. The world stays
      consistent throughout. */
  lemma CompletedQuestCanReturn()
    ensures
      var w0 := World(
        map[1 := Character(1, "Aragorn", "Ranger", 1, 0)],
        map[7 := Quest(7, "Slay Dragon", "Defeat the dragon", 150, Pending, 0)],
        [], map[], []);
      var w1 := AcceptMission(w0, 1, 7).1;
      var (done, w2) := CompleteMission(w1, 1);
      var w3 := UpdateMision(w2, 7, StatusPatch(Pending)).1;
      var (again, w4) := AcceptMission(w3, 1, 7);
      var w5 := CompleteMission(w4, 1).1;
      && done.Some? && done.value.status == Completed
      && again && Consistent(w4)
      && w5.characters[1].experience == 300
  {
    var w0 := World(
      map[1 := Character(1, "Aragorn", "Ranger", 1, 0)],
      map[7 := Quest(7, "Slay Dragon", "Defeat the dragon", 150, Pending, 0)],
      [], map[], []);
    AcceptPreservesConsistency(w0, 1, 7);
    var w1 := AcceptMission(w0, 1, 7).1;
    CompletePreservesConsistency(w1, 1);
    var w2 := CompleteMission(w1, 1).1;
    assert w2.characters[1].experience == 150;
    var w3 := UpdateMision(w2, 7, StatusPatch(Pending)).1;
    assert w3.quests[7].status == Pending && Queue(w3.queues, 1) == [];
    assert Consistent(w3);
    AcceptPreservesConsistency(w3, 1, 7);
    var w4 := AcceptMission(w3, 1, 7).1;
    assert Queue(w4.queues, 1) == [7];
  }
}

=== FILE: entities.dfy ===
/** The stored records (models/Mision.py, models/Personaje.py,
    models/MisionPersonaje.py), which are also what the API returns. */
module Entities {

  import opened QuestDto
  import CharacterDto

  type QuestId = int
  type CharacterId = int

  /** Opaque creation time, filled in by the database. */
  type Timestamp = int

  /** `Mision`: the `MisionResponse` fields: id, status and start time on top
      of the creation fields. */
  datatype Quest = Quest(
    id: QuestId,
    name: string,
    description: string,
    experience: int,
    status: Status,
    startedAt: Timestamp)

  /** `Personaje`: the `PersonajeResponse` fields. */
  datatype Character = Character(
    id: CharacterId,
    name: string,
    classTag: string,
    level: int,
    experience: int)

  /** A `MisionPersonaje` row: a character has taken a quest. */
  datatype Link = Link(questId: QuestId, characterId: CharacterId)

  /** A stored quest that satisfies the bounds it was validated against. */
  predicate ValidQuest(q: Quest) {
    NameOk(q.name) && DescriptionOk(q.description) && RewardOk(q.experience)
  }

  /** A stored character whose name and class tag satisfy their bounds. */
  predicate ValidCharacter(c: Character) {
    CharacterDto.TextOk(c.name) && CharacterDto.TextOk(c.classTag)
  }
}

=== FILE: pending_queue.dfy ===
/** The global FIFO of pending quests (queue/misionFIFO.py). It holds the quest
    records it was given, as they were when enqueued, and admits only those
    whose status is pending. */
module PendingQueue {

  import opened Wrappers
  import opened QuestDto
  import opened Entities
  import Seqs

  predicate IsPending(m: Quest) {
    m.status == Pending
  }

  /** Every queued record was pending when it was enqueued. */
  predicate AllPending(q: seq<Quest>) {
    forall i | 0 <= i < |q| :: IsPending(q[i])
  }

  /** `enqueue`: appends `m` exactly when it is pending; otherwise the queue is
      unchanged. */
  function Enqueue(q: seq<Quest>, m: Quest): (r: seq<Quest>)
    ensures r == q + [m] || r == q
    ensures r == q + [m] <==> IsPending(m)
    ensures AllPending(q) ==> AllPending(r)
  {
    if m.status == Pending then q + [m] else q
  }

  /** `dequeue`: nothing from an empty queue; otherwise the head, and the rest
      stays in order. Putting the head back in front restores the queue. */
  function Dequeue(q: seq<Quest>): (r: (Option<Quest>, seq<Quest>))
    ensures q == [] <==> r.0.None?
    ensures r.0.None? ==> r.1 == q
    ensures r.0.Some? ==> q == [r.0.value] + r.1
    ensures AllPending(q) ==> AllPending(r.1)
  {
    if IsEmpty(q) then (None, q) else (Some(q[0]), q[1..])
  }

  /** `peek`: the record `dequeue` would return. */
  function Peek(q: seq<Quest>): (r: Option<Quest>)
    ensures r == Dequeue(q).0
    ensures r.Some? ==> r.value in q
  {
    if IsEmpty(q) then None else Some(q[0])
  }

  /** `is_empty`. */
  function IsEmpty(q: seq<Quest>): (r: bool)
    ensures r <==> Size(q) == 0
  {
    |q| == 0
  }

  /** `size`: the number of records waiting. */
  function Size(q: seq<Quest>): (r: nat)
    ensures r == 0 <==> q == []
  {
    |q|
  }

  /** `clear`. */
  function Clear(q: seq<Quest>): (r: seq<Quest>)
    ensures IsEmpty(r) && AllPending(r)
  {
    []
  }

  /** A record enqueued behind a non-empty queue does not overtake its head;
      one enqueued into an empty queue is the next out exactly when it was
      admitted. */
  lemma EnqueueKeepsHead(q: seq<Quest>, m: Quest)
    ensures q != [] ==> Dequeue(Enqueue(q, m)).0 == Dequeue(q).0
    ensures q == [] ==> (Dequeue(Enqueue(q, m)).0 == Some(m) <==> IsPending(m))
  {
  }

  /** The size counts the records: an admitted enqueue adds one, a dequeue
      from a non-empty queue takes one, and clear leaves none. */
  lemma SizeCounts(q: seq<Quest>, m: Quest)
    ensures Size(Enqueue(q, m)) == Size(q) + (if IsPending(m) then 1 else 0)
    ensures q != [] ==> Size(Dequeue(q).1) + 1 == Size(q)
    ensures Size(Clear(q)) == 0
  {
  }

  /** The pending records of `ms`, in input order. */
  function PendingOf(ms: seq<Quest>): (r: seq<Quest>)
    ensures AllPending(r)
  {
    Seqs.Filter(ms, IsPending)
  }

  /** `load_pending_missions`: appends exactly the pending records of `ms`, in
      input order. */
  method LoadPendingMissions(q: seq<Quest>, ms: seq<Quest>) returns (r: seq<Quest>)
    ensures r == q + PendingOf(ms)
    ensures forall m | m in r[|q|..] :: m in ms && IsPending(m)
    ensures forall m | m in ms && IsPending(m) :: m in r[|q|..]
    ensures AllPending(q) ==> AllPending(r)
  {
    r := q;
    var i := 0;
    while i < |ms|
      invariant 0 <= i <= |ms|
      invariant r == q + PendingOf(ms[..i])
    {
      var m := ms[i];
      assert ms[..i + 1] == ms[..i] + [m];
      Seqs.FilterSnoc(ms[..i], m, IsPending);
      if m.status == Pending {
        r := Enqueue(r, m);
      }
      i := i + 1;
    }
    assert ms[..i] == ms;
    assert r[|q|..] == PendingOf(ms);
  }
}

=== FILE: progression.dfy ===
/** Invariants about the records themselves: quests keep the bounds they were
    validated against, and a character whose level matches its experience
    keeps it matched when it completes a quest. */
module Progression {

  import opened QuestDto
  import opened Entities
  import opened CharacterQueues
  import opened CharacterRepository
  import opened AppState
  import opened CharacterService
  import opened QuestService

  /** Every stored quest satisfies the creation bounds. */
  predicate QuestsValid(w: World) {
    forall k | k in w.quests :: ValidQuest(w.quests[k])
  }

  lemma CreateMisionKeepsQuestsValid(w: World, c: QuestCreate, now: Timestamp)
    requires QuestsValid(w)
    ensures QuestsValid(CreateMision(w, c, now).1) <==> ValidQuestCreate(c)
  {
    var (q, w') := CreateMision(w, c, now);
    assert w'.quests[q.id] == q;
  }

  lemma UpdateMisionKeepsQuestsValid(w: World, id: QuestId, p: QuestPatch)
    requires QuestsValid(w) && PatchBounded(p)
    ensures QuestsValid(UpdateMision(w, id, p).1)
  {
  }

  lemma AcceptKeepsQuestsValid(w: World, c: CharacterId, q: QuestId)
    requires QuestsValid(w)
    ensures QuestsValid(AcceptMission(w, c, q).1)
  {
  }

  lemma CompleteKeepsQuestsValid(w: World, c: CharacterId)
    requires QuestsValid(w)
    ensures QuestsValid(CompleteMission(w, c).1)
  {
  }

  /** Completing a quest with a valid (positive) reward keeps a matched
      character matched, and strictly increases its experience. */
  lemma CompleteKeepsLevelRule(w: World, c: CharacterId)
    requires QuestsValid(w) && c in w.characters && LevelMatches(w.characters[c])
    requires CompleteMission(w, c).0.Some?
    ensures var w' := CompleteMission(w, c).1;
      LevelMatches(w'.characters[c]) && w'.characters[c].experience > w.characters[c].experience
  {
  }

  /** No other character's record changes when one completes a quest. */
  lemma CompleteTouchesOneCharacter(w: World, c: CharacterId, d: CharacterId)
    requires d != c && d in w.characters
    ensures var w' := CompleteMission(w, c).1;
      d in w'.characters && w'.characters[d] == w.characters[d]
  {
  }
}

=== FILE: quest_dto.dfy ===
/** Quest request shapes and their validation bounds (dto/mision_dto.py), and
    the quest status vocabulary with its wire strings. */
module QuestDto {

  import opened Wrappers

  /** `EstadoMision`: a quest is pending, in progress or completed. */
  datatype Status = Pending | InProgress | Completed

  /** The string a status is stored and sent as. */
  function WireName(s: Status): (r: string) {
    match s
    case Pending => "pendiente"
    case InProgress => "en_progreso"
    case Completed => "completada"
  }

  /** Reads a wire string as a status; any string outside the three names is rejected. */
  function ParseStatus(w: string): (r: Option<Status>)
    ensures r.Some? ==> WireName(r.value) == w
    ensures r.None? ==> forall s: Status :: WireName(s) != w
  {
    if w == "pendiente" then Some(Pending)
    else if w == "en_progreso" then Some(InProgress)
    else if w == "completada" then Some(Completed)
    else None
  }

  /** Every status survives the trip to its wire string and back, so no two
      statuses share a wire string. */
  lemma StatusRoundTrip(s: Status, t: Status)
    ensures ParseStatus(WireName(s)) == Some(s)
    ensures WireName(s) == WireName(t) ==> s == t
  {
  }

  const NameMin := 3
  const NameMax := 50
  const DescriptionMin := 10
  const DescriptionMax := 200

  predicate NameOk(name: string) {
    NameMin <= |name| <= NameMax
  }

  predicate DescriptionOk(description: string) {
    DescriptionMin <= |description| <= DescriptionMax
  }

  predicate RewardOk(experience: int) {
    experience > 0
  }

  /** `MisionCreate`: the fields a client supplies to create a quest. */
  datatype QuestCreate = QuestCreate(name: string, description: string, experience: int)

  /** The field bounds of `MisionBase`. */
  predicate ValidQuestCreate(c: QuestCreate) {
    NameOk(c.name) && DescriptionOk(c.description) && RewardOk(c.experience)
  }

  /** `MisionUpdate` as received: every field optional, the status still a string. */
  datatype QuestUpdateRequest = QuestUpdateRequest(
    name: Option<string>,
    description: Option<string>,
    experience: Option<int>,
    status: Option<string>)

  /** A validated update: the fields that were set, the status read as a `Status`.
      `None` means the field was not set and is left alone. */
  datatype QuestPatch = QuestPatch(
    name: Option<string>,
    description: Option<string>,
    experience: Option<int>,
    status: Option<Status>)

  /** The patch that changes the status only, as the services send it. */
  function StatusPatch(s: Status): (r: QuestPatch) {
    QuestPatch(None, None, None, Some(s))
  }

  /** A patch whose present fields all respect the creation bounds. */
  predicate PatchBounded(p: QuestPatch) {
    && (p.name.Some? ==> NameOk(p.name.value))
    && (p.description.Some? ==> DescriptionOk(p.description.value))
    && (p.experience.Some? ==> RewardOk(p.experience.value))
  }

  /** Validation of a `MisionUpdate` body: accepted exactly when every present
      field respects its bound and a present status is one of the three names;
      the accepted patch carries the same fields. */
  function ValidateQuestUpdate(req: QuestUpdateRequest): (r: Option<QuestPatch>)
    ensures r.Some? <==>
      && (req.name.Some? ==> NameOk(req.name.value))
      && (req.description.Some? ==> DescriptionOk(req.description.value))
      && (req.experience.Some? ==> RewardOk(req.experience.value))
      && (req.status.Some? ==> req.status.value in {"pendiente", "en_progreso", "completada"})
    ensures r.Some? ==> PatchBounded(r.value)
    ensures r.Some? ==> r.value.name == req.name && r.value.description == req.description
                        && r.value.experience == req.experience
    ensures r.Some? ==> (r.value.status.Some? <==> req.status.Some?)
    ensures r.Some? && req.status.Some? ==> WireName(r.value.status.value) == req.status.value
  {
    var status := if req.status.Some? then ParseStatus(req.status.value) else None;
    if req.name.Some? && !NameOk(req.name.value) then None
    else if req.description.Some? && !DescriptionOk(req.description.value) then None
    else if req.experience.Some? && !RewardOk(req.experience.value) then None
    else if req.status.Some? && status.None? then None
    else Some(QuestPatch(req.name, req.description, req.experience, status))
  }
}

=== FILE: quest_repository.dfy ===
/** The quest store and the assignment rows (repositories/mision_repository.py):
    the `misiones` table as a map from id to record, and the `mision_personaje`
    join table as a sequence of rows. The join table has no uniqueness
    constraint of its own; pairs stay unique only because `Assign` checks
    before it inserts. */
module QuestRepository {

  import opened Wrappers
  import opened QuestDto
  import opened Entities
  import Table
  import Seqs

  type QuestStore = map<QuestId, Quest>

  /** The primary key of a quest row. */
  function IdOf(q: Quest): (r: QuestId) {
    q.id
  }

  /** Every row is stored under its own id. */
  predicate WellKeyed(s: QuestStore) {
    Table.WellKeyed(s, IdOf)
  }

  /** `get_all(skip, limit)`: a page of the id-ordered listing (`Table.Page`). */
  function GetAll(s: QuestStore, skip: nat, limit: nat): (r: seq<Quest>)
    ensures |r| <= limit
    ensures skip >= |s| ==> r == []
    ensures skip < |s| ==> |r| == Seqs.MinNat(limit, |s| - skip)
    ensures forall i | 0 <= i < |r| :: skip + i < |s| && r[i] == Table.Rows(s)[skip + i]
    ensures forall v | v in r :: v in s.Values
    ensures WellKeyed(s) ==> forall i, j | 0 <= i < j < |r| :: r[i].id < r[j].id
  {
    Table.PageListsTheStore(s, skip, limit);
    Table.PagesFollowKeys(s, IdOf, skip, limit);
    Table.Page(s, skip, limit)
  }

  /** `get_by_id` (`Table.Get`): the quest filed under `id`, which carries
      that id. */
  function GetById(s: QuestStore, id: QuestId): (r: Option<Quest>)
    ensures r.Some? <==> id in s
    ensures r.Some? ==> r.value == s[id]
    ensures WellKeyed(s) && r.Some? ==> r.value.id == id
  {
    Table.Get(s, id)
  }

  /** `get_by_estado`: exactly the stored quests with status `st`. */
  function GetByStatus(s: QuestStore, st: Status): (r: seq<Quest>)
    ensures forall v | v in r :: v in s.Values && v.status == st
    ensures forall k | k in s && s[k].status == st :: s[k] in r
    ensures forall v | v in Table.Rows(s) :: multiset(r)[v] == if v.status == st then multiset(Table.Rows(s))[v] else 0
    ensures |r| <= |s|
  {
    Table.RowsAreTheStore(s);
    Seqs.FilterCounts(Table.Rows(s), (q: Quest) => q.status == st);
    Seqs.Filter(Table.Rows(s), (q: Quest) => q.status == st)
  }

  /** `create`: a new quest under a fresh id with the given fields, stamped
      `now`, and always pending whatever the caller had in mind. */
  function Create(s: QuestStore, c: QuestCreate, now: Timestamp): (r: (Quest, QuestStore))
    ensures r.0.id !in s && r.1 == s[r.0.id := r.0]
    ensures r.0.status == Pending
    ensures r.0.name == c.name && r.0.description == c.description && r.0.experience == c.experience
    ensures r.0.startedAt == now
    ensures WellKeyed(s) ==> WellKeyed(r.1)
    ensures ValidQuest(r.0) <==> ValidQuestCreate(c)
  {
    var id := Table.FreshId(s.Keys);
    var q := Quest(id, c.name, c.description, c.experience, Pending, now);
    (q, s[id := q])
  }

  /** The record with the set fields of `p` written over it. */
  function Apply(q: Quest, p: QuestPatch): (r: Quest) {
    q.(
      name := if p.name.Some? then p.name.value else q.name,
      description := if p.description.Some? then p.description.value else q.description,
      experience := if p.experience.Some? then p.experience.value else q.experience,
      status := if p.status.Some? then p.status.value else q.status)
  }

  /** `update`: nothing for an unknown id and no change; otherwise only the
      fields present in `p` change, only in that record. */
  function Update(s: QuestStore, id: QuestId, p: QuestPatch): (r: (Option<Quest>, QuestStore))
    ensures id !in s ==> r == (None, s)
    ensures id in s ==> r.0.Some? && r.1 == s[id := r.0.value]
    ensures id in s ==> r.0.value.id == s[id].id && r.0.value.startedAt == s[id].startedAt
    ensures id in s && p.name.None? ==> r.0.value.name == s[id].name
    ensures id in s && p.name.Some? ==> r.0.value.name == p.name.value
    ensures id in s && p.description.None? ==> r.0.value.description == s[id].description
    ensures id in s && p.description.Some? ==> r.0.value.description == p.description.value
    ensures id in s && p.experience.None? ==> r.0.value.experience == s[id].experience
    ensures id in s && p.experience.Some? ==> r.0.value.experience == p.experience.value
    ensures id in s && p.status.None? ==> r.0.value.status == s[id].status
    ensures id in s && p.status.Some? ==> r.0.value.status == p.status.value
    ensures WellKeyed(s) ==> WellKeyed(r.1)
  {
    if id !in s then (None, s)
    else
      var q := Apply(s[id], p);
      (Some(q), s[id := q])
  }

  /** `delete` (`Table.Remove`). */
  function Delete(s: QuestStore, id: QuestId): (r: (bool, QuestStore))
    ensures r.0 <==> id in s
    ensures r.1 == s - {id}
    ensures WellKeyed(s) ==> WellKeyed(r.1)
  {
    Table.Remove(s, id)
  }

  /** No pair appears in two assignment rows. */
  predicate LinksUnique(links: seq<Link>) {
    forall i, j | 0 <= i < j < |links| :: links[i] != links[j]
  }

  /** `asignar_personaje`: get-or-create. An existing row for the pair is
      returned and the table is left alone; otherwise exactly one row is
      appended. Either way the pair is linked afterwards and no pair is
      duplicated. */
  function Assign(links: seq<Link>, m: QuestId, p: CharacterId): (r: (Link, seq<Link>))
    ensures r.0 == Link(m, p) && r.0 in r.1
    ensures Link(m, p) in links ==> r.1 == links
    ensures Link(m, p) !in links ==> r.1 == links + [Link(m, p)]
    ensures LinksUnique(links) ==> LinksUnique(r.1)
  {
    var link := Link(m, p);
    if link in links then (link, links) else (link, links + [link])
  }

  /** Assigning the same pair again is a no-op: once is the same as twice. */
  lemma AssignIdempotent(links: seq<Link>, m: QuestId, p: CharacterId)
    ensures Assign(Assign(links, m, p).1, m, p) == Assign(links, m, p)
  {
  }

  /** A freshly created quest can be read back by its id; deleting it again
      restores the store. */
  lemma CreateThenGet(s: QuestStore, c: QuestCreate, now: Timestamp, q: Quest, s': QuestStore)
    requires (q, s') == Create(s, c, now)
    ensures GetById(s', q.id) == Some(q)
    ensures Delete(s', q.id) == (true, s)
  {
    Table.RemoveAfterInsert(s, q.id, q);
  }

  /** A freshly created quest is listed among the pending quests. */
  lemma CreateIsListedPending(s: QuestStore, c: QuestCreate, now: Timestamp, q: Quest, s': QuestStore)
    requires (q, s') == Create(s, c, now)
    ensures q in GetByStatus(s', Pending)
  {
    assert q.id in s' && s'[q.id] == q && q.status == Pending;
  }

  /** Applying the same patch twice is the same as applying it once, and an
      empty patch changes nothing. */
  lemma UpdateIdempotent(s: QuestStore, id: QuestId, p: QuestPatch)
    ensures Update(Update(s, id, p).1, id, p) == Update(s, id, p)
    ensures Update(s, id, QuestPatch(None, None, None, None)).1 == s
  {
    if id in s {
      var q := Apply(s[id], p);
      var s1 := s[id := q];
      assert Apply(q, p) == q;
      assert Update(s1, id, p) == (Some(q), s1[id := q]);
      assert s1[id := q] == s1;
      assert s[id := s[id]] == s;
    }
  }

  /** A validated patch keeps a valid stored quest valid. */
  lemma UpdateKeepsValidQuest(s: QuestStore, id: QuestId, p: QuestPatch)
    requires id in s && ValidQuest(s[id]) && PatchBounded(p)
    ensures ValidQuest(Update(s, id, p).0.value)
  {
  }

  /** The status listings partition the store: every quest is listed under
      its own status and under no other. */
  lemma StatusListingsPartition(s: QuestStore, k: QuestId, st: Status)
    requires k in s
    ensures s[k] in GetByStatus(s, st) <==> s[k].status == st
  {
  }

  /** A status listing comes in ascending id order, so no quest is listed
      twice. */
  lemma StatusListingInIdOrder(s: QuestStore, st: Status)
    requires WellKeyed(s)
    ensures var r := GetByStatus(s, st);
      forall i, j | 0 <= i < j < |r| :: r[i].id < r[j].id
  {
    Table.PagesFollowKeys(s, IdOf, 0, 0);
    Seqs.FilterKeepsOrder(Table.Rows(s), (q: Quest) => q.status == st, (a: Quest, b: Quest) => a.id < b.id);
  }
}

=== FILE: quest_service.dfy ===
/** The quest-side orchestration (services/mision_service.py): creating a
    quest into the pending queue, updating it, assigning a character, and
    popping the next pending quest. */
module QuestService {

  import opened Wrappers
  import opened QuestDto
  import opened Entities
  import PendingQueue
  import QuestRepository
  import opened AppState

  /** `create_mision`: stores a new pending quest under a fresh id and appends
      it to the tail of the pending queue; nothing else changes. */
  function CreateMision(w: World, c: QuestCreate, now: Timestamp): (r: (Quest, World))
    ensures r.0.id !in w.quests && r.1.quests == w.quests[r.0.id := r.0]
    ensures r.0.status == Pending && r.0.startedAt == now
    ensures r.0.name == c.name && r.0.description == c.description && r.0.experience == c.experience
    ensures r.1.pending == w.pending + [r.0]
    ensures r.1.characters == w.characters && r.1.links == w.links && r.1.queues == w.queues
  {
    var (q, quests) := QuestRepository.Create(w.quests, c, now);
    (q, w.(quests := quests, pending := PendingQueue.Enqueue(w.pending, q)))
  }

  /** `_handle_completed_mission`: a placeholder that does nothing; in
      particular it grants no experience to anyone. */
  function HandleCompletedMission(w: World, q: Quest): (r: World)
    ensures r == w
  {
    w
  }

  /** `update_mision`: nothing for an unknown id and no change; otherwise the
      set fields of that one quest change and the updated record is returned.
      Setting the status to completed this way grants no experience: the
      characters, queues and assignments are untouched. */
  function UpdateMision(w: World, id: QuestId, p: QuestPatch): (r: (Option<Quest>, World))
    ensures id !in w.quests ==> r == (None, w)
    ensures id in w.quests ==> r.0.Some? && r.1.quests == w.quests[id := r.0.value]
    ensures id in w.quests ==> r.0.value.id == w.quests[id].id && r.0.value.startedAt == w.quests[id].startedAt
    ensures id in w.quests && p.name.Some? ==> r.0.value.name == p.name.value
    ensures id in w.quests && p.name.None? ==> r.0.value.name == w.quests[id].name
    ensures id in w.quests && p.description.Some? ==> r.0.value.description == p.description.value
    ensures id in w.quests && p.description.None? ==> r.0.value.description == w.quests[id].description
    ensures id in w.quests && p.experience.Some? ==> r.0.value.experience == p.experience.value
    ensures id in w.quests && p.experience.None? ==> r.0.value.experience == w.quests[id].experience
    ensures id in w.quests && p.status.Some? ==> r.0.value.status == p.status.value
    ensures id in w.quests && p.status.None? ==> r.0.value.status == w.quests[id].status
    ensures r.1.characters == w.characters && r.1.queues == w.queues
    ensures r.1.links == w.links && r.1.pending == w.pending
  {
    var (updated, quests) := QuestRepository.Update(w.quests, id, p);
    if updated.None? then (None, w)
    else
      var w' := w.(quests := quests);
      var w'' := if p.status == Some(Completed) then HandleCompletedMission(w', updated.value) else w';
      (updated, w'')
  }

  /** `delete_mision`: false for an unknown id; otherwise true, and only that
      quest record goes. Queue entries, assignment rows and pending-queue
      copies that refer to it stay. The NOT NULL foreign key that would make
      the commit fail while assignment rows name the quest is not modelled. */
  function DeleteMision(w: World, id: QuestId): (r: (bool, World))
    ensures r.0 <==> id in w.quests
    ensures r.1.quests.Keys == w.quests.Keys - {id}
    ensures forall k | k in r.1.quests :: r.1.quests[k] == w.quests[k]
    ensures r.1.characters == w.characters && r.1.queues == w.queues
    ensures r.1.links == w.links && r.1.pending == w.pending
  {
    var (found, quests) := QuestRepository.Delete(w.quests, id);
    (found, w.(quests := quests))
  }

  /** `assign_personaje_to_mision`: true exactly when the repository yields a
      link, which it always does; the pair is then linked and no quest
      changes status. */
  function AssignCharacterToMission(w: World, m: QuestId, p: CharacterId): (r: (bool, World))
    ensures r.0
    ensures Link(m, p) in r.1.links
    ensures Link(m, p) in w.links ==> r.1.links == w.links
    ensures Link(m, p) !in w.links ==> r.1.links == w.links + [Link(m, p)]
    ensures r.1.quests == w.quests && r.1.characters == w.characters
    ensures r.1.queues == w.queues && r.1.pending == w.pending
  {
    var (link, links) := QuestRepository.Assign(w.links, m, p);
    (true, w.(links := links))
  }

  /** `get_next_pending_mission`: nothing from an empty pending queue;
      otherwise its head, removed from the queue, with no status change. */
  function GetNextPendingMission(w: World): (r: (Option<Quest>, World))
    ensures w.pending == [] ==> r == (None, w)
    ensures w.pending != [] ==> r.0 == Some(w.pending[0]) && r.1.pending == w.pending[1..]
    ensures r.1.quests == w.quests && r.1.characters == w.characters
    ensures r.1.links == w.links && r.1.queues == w.queues
  {
    if PendingQueue.IsEmpty(w.pending) then (None, w)
    else
      var (next, rest) := PendingQueue.Dequeue(w.pending);
      (next, w.(pending := rest))
  }
}

=== FILE: scenarios.dfy ===
/** Whole-system runs: the worked example of one character taking one quest,
    and two quests completed in the order they were accepted. */
module Scenarios {

  import opened Wrappers
  import opened QuestDto
  import opened CharacterDto
  import opened Entities
  import opened CharacterQueues
  import CharacterRepository
  import opened AppState
  import opened CharacterService
  import opened QuestService

  const Empty := World(map[], map[], [], map[], [])

  /** Aragorn (level 1, no experience) takes "Slay Dragon" worth 150: the quest
      goes in progress and is his only queued quest; completing it returns it
      completed, leaves him at 150 experience and level 2, and empties his
      queue. */
  lemma AragornSlaysTheDragon()
    ensures
      var (aragorn, characters) := CharacterRepository.Create(map[], CharacterCreate("Aragorn", "Ranger"));
      var w0 := Empty.(characters := characters);
      var (dragon, w1) := CreateMision(w0, QuestCreate("Slay Dragon", "Defeat the ancient dragon", 150), 0);
      var (accepted, w2) := AcceptMission(w1, aragorn.id, dragon.id);
      var (done, w3) := CompleteMission(w2, aragorn.id);
      && aragorn.level == 1 && aragorn.experience == 0
      && accepted
      && w2.quests[dragon.id].status == InProgress
      && Queue(w2.queues, aragorn.id) == [dragon.id]
      && done.Some? && done.value.status == Completed && done.value.id == dragon.id
      && w3.characters[aragorn.id].experience == 150
      && w3.characters[aragorn.id].level == 2
      && Queue(w3.queues, aragorn.id) == []
  {
  }

  /** Two quests accepted in the order q1, q2 by the same character with an
      empty queue come back from two completions as q1 and then q2. */
  lemma TwoQuestsCompleteInAcceptOrder(w: World, c: CharacterId, q1: QuestId, q2: QuestId)
    requires c in w.characters && Queue(w.queues, c) == []
    requires q1 != q2 && q1 in w.quests && q2 in w.quests
    requires w.quests[q1].status == Pending && w.quests[q2].status == Pending
    ensures
      var (ok1, w1) := AcceptMission(w, c, q1);
      var (ok2, w2) := AcceptMission(w1, c, q2);
      var (first, w3) := CompleteMission(w2, c);
      var (second, w4) := CompleteMission(w3, c);
      && ok1 && ok2
      && first == Some(w3.quests[q1]) && first.value.status == Completed
      && second == Some(w4.quests[q2]) && second.value.status == Completed
      && Queue(w4.queues, c) == []
  {
  }
}

=== FILE: seqs.dfy ===
/** Sequence helpers shared by the queues and the repositories: order-preserving
    filtering (a SQL `WHERE` over rows, or a loop that skips elements) and
    offset/limit paging. */
module Seqs {

  /** The elements of `s` that satisfy `p`, in their original order.
      Defined from the back so that a left-to-right loop can extend it
      one element at a time. */
  function Filter<T>(s: seq<T>, p: T -> bool): (r: seq<T>)
    ensures |r| <= |s|
    ensures forall x | x in r :: x in s && p(x)
    ensures forall x | x in s && p(x) :: x in r
    ensures forall i | 0 <= i < |r| :: p(r[i])
    decreases |s|
  {
    if |s| == 0 then []
    else
      var init := Filter(s[..|s| - 1], p);
      var last := s[|s| - 1];
      assert s == s[..|s| - 1] + [last];
      if p(last) then init + [last] else init
  }

  /** Filtering keeps each kept element as often as it occurs, and drops
      every other element entirely. */
  lemma {:induction false} FilterCounts<T>(s: seq<T>, p: T -> bool)
    ensures forall x | x in s :: multiset(Filter(s, p))[x] == if p(x) then multiset(s)[x] else 0
    decreases |s|
  {
    if |s| > 0 {
      var front := s[..|s| - 1];
      var last := s[|s| - 1];
      assert s == front + [last];
      FilterCounts(front, p);
      FilterAppend(front, [last], p);
      assert multiset(s) == multiset(front) + multiset{last};
      assert last !in front ==> last !in Filter(front, p);
    }
  }

  /** Filtering one more element extends the previous result. */
  lemma FilterSnoc<T>(s: seq<T>, x: T, p: T -> bool)
    ensures Filter(s + [x], p) == Filter(s, p) + (if p(x) then [x] else [])
  {
  }

  /** Filtering distributes over concatenation. */
  lemma {:induction false} FilterAppend<T>(a: seq<T>, b: seq<T>, p: T -> bool)
    ensures Filter(a + b, p) == Filter(a, p) + Filter(b, p)
    decreases |b|
  {
    if |b| == 0 {
      assert a + b == a;
    } else {
      var b' := b[..|b| - 1];
      var x := b[|b| - 1];
      assert b == b' + [x];
      assert a + b == (a + b') + [x];
      FilterAppend(a, b', p);
      FilterSnoc(a + b', x, p);
      FilterSnoc(b', x, p);
    }
  }

  /** Filtering keeps the relative order of what it keeps: a relation that
      holds between every earlier and later element of `s` still holds in
      the result. */
  lemma {:induction false} FilterKeepsOrder<T>(s: seq<T>, p: T -> bool, before: (T, T) -> bool)
    requires forall i, j | 0 <= i < j < |s| :: before(s[i], s[j])
    ensures forall i, j | 0 <= i < j < |Filter(s, p)| :: before(Filter(s, p)[i], Filter(s, p)[j])
    decreases |s|
  {
    if |s| > 0 {
      var front := s[..|s| - 1];
      var last := s[|s| - 1];
      assert s == front + [last];
      FilterKeepsOrder(front, p, before);
      FilterAppend(front, [last], p);
      var init := Filter(front, p);
      forall x | x in init
        ensures before(x, last)
      {
        var k :| 0 <= k < |front| && front[k] == x;
        assert s[k] == x;
      }
    }
  }

  function MinNat(a: nat, b: nat): (r: nat) {
    if a <= b then a else b
  }

  /** `OFFSET skip LIMIT limit` over an ordered listing: the elements starting
      at position `skip`, at most `limit` of them. */
  function Slice<T>(s: seq<T>, skip: nat, limit: nat): (r: seq<T>)
    ensures |r| <= limit
    ensures skip >= |s| ==> r == []
    ensures skip < |s| ==> |r| == MinNat(limit, |s| - skip)
    ensures forall i | 0 <= i < |r| :: skip + i < |s| && r[i] == s[skip + i]
  {
    var lo := MinNat(skip, |s|);
    var hi := MinNat(skip + limit, |s|);
    s[lo..hi]
  }

  /** Two consecutive pages read the same rows as one page of their combined size. */
  lemma SliceSplit<T>(s: seq<T>, skip: nat, a: nat, b: nat)
    ensures Slice(s, skip, a) + Slice(s, skip + a, b) == Slice(s, skip, a + b)
  {
  }

  /** A page starting at zero that is at least as long as the listing is the listing. */
  lemma SliceWhole<T>(s: seq<T>, limit: nat)
    requires |s| <= limit
    ensures Slice(s, 0, limit) == s
  {
  }
}

=== FILE: table.dfy ===
/** A database table keyed by an integer primary key, seen as a map from id to
    row. The SQL queries of the repositories carry no `ORDER BY`; the model
    fixes the listing order to ascending primary key, which is the order in
    which SQLite scans a rowid table. */
module Table {

  import opened Wrappers
  import Seqs

  predicate Increasing(s: seq<int>) {
    forall i, j | 0 <= i < j < |s| :: s[i] < s[j]
  }

  /** A set is either empty or has a member. */
  lemma EmptyOrMember(s: set<int>)
    ensures s == {} || exists x :: x in s
  {
    if !(exists x :: x in s) {
      assert s == {};
    }
  }

  lemma {:induction false} MinExists(s: set<int>)
    requires s != {}
    ensures exists m :: m in s && forall y | y in s :: m <= y
    decreases |s|
  {
    EmptyOrMember(s);
    var x :| x in s;
    var rest := s - {x};
    if rest == {} {
      forall y | y in s
        ensures x <= y
      {
        assert y !in rest;
      }
    } else {
      MinExists(rest);
      var m :| m in rest && forall y | y in rest :: m <= y;
      var least := if x < m then x else m;
      forall y | y in s
        ensures least <= y
      {
        if y != x {
          assert y in rest;
        }
      }
      assert least in s;
    }
  }

  function Min(s: set<int>): (m: int)
    requires s != {}
    ensures m in s
    ensures forall y | y in s :: m <= y
  {
    MinExists(s);
    var m :| m in s && forall y | y in s :: m <= y;
    m
  }

  /** The keys of `s` in ascending order, each exactly once. */
  function SortedKeys(s: set<int>): (r: seq<int>)
    ensures Increasing(r)
    ensures forall k :: k in r <==> k in s
    ensures |r| == |s|
    decreases |s|
  {
    if s == {} then []
    else
      var m := Min(s);
      var rest := SortedKeys(s - {m});
      assert forall k | k in rest :: m < k;
      [m] + rest
  }

  /** The rows stored under the keys `ks`, in the order of `ks`. */
  function RowsAt<T>(m: map<int, T>, ks: seq<int>): (r: seq<T>)
    requires forall i | 0 <= i < |ks| :: ks[i] in m
    ensures |r| == |ks|
    ensures forall i | 0 <= i < |r| :: r[i] == m[ks[i]]
  {
    seq(|ks|, i requires 0 <= i < |ks| => m[ks[i]])
  }

  /** The rows of the table in primary-key order. */
  function Rows<T>(m: map<int, T>): (r: seq<T>)
    ensures |r| == |m|
    ensures forall i | 0 <= i < |r| :: SortedKeys(m.Keys)[i] in m && r[i] == m[SortedKeys(m.Keys)[i]]
  {
    var ks := SortedKeys(m.Keys);
    assert forall i | 0 <= i < |ks| :: ks[i] in m by {
      forall i | 0 <= i < |ks|
        ensures ks[i] in m
      {
        assert ks[i] in ks;
      }
    }
    RowsAt(m, ks)
  }

  /** Every stored row appears in the listing, and the listing holds nothing else. */
  lemma RowsAreTheStore<T>(m: map<int, T>)
    ensures forall k | k in m :: m[k] in Rows(m)
    ensures forall v | v in Rows(m) :: v in m.Values
  {
  }

  /** Every row is filed under its own key, as `key` reads it back from the row. */
  predicate WellKeyed<T>(m: map<int, T>, key: T -> int) {
    forall k | k in m :: key(m[k]) == k
  }

  /** In a well-keyed table the listing and every page of it are in strictly
      ascending key order, so no row is listed twice. */
  lemma PagesFollowKeys<T>(m: map<int, T>, key: T -> int, skip: nat, limit: nat)
    ensures WellKeyed(m, key) ==>
      forall i, j | 0 <= i < j < |Rows(m)| :: key(Rows(m)[i]) < key(Rows(m)[j])
    ensures WellKeyed(m, key) ==>
      forall i, j | 0 <= i < j < |Page(m, skip, limit)| :: key(Page(m, skip, limit)[i]) < key(Page(m, skip, limit)[j])
  {
    if WellKeyed(m, key) {
      var rows := Rows(m);
      var ks := SortedKeys(m.Keys);
      assert forall i | 0 <= i < |rows| :: key(rows[i]) == ks[i];
    }
  }

  /** `query(...).offset(skip).limit(limit).all()`: the rows from position
      `skip` of the primary-key listing, at most `limit` of them. */
  function Page<T>(m: map<int, T>, skip: nat, limit: nat): (r: seq<T>)
    ensures |r| <= limit
    ensures skip >= |m| ==> r == []
    ensures skip < |m| ==> |r| == Seqs.MinNat(limit, |m| - skip)
    ensures forall i | 0 <= i < |r| :: skip + i < |m| && r[i] == Rows(m)[skip + i]
  {
    Seqs.Slice(Rows(m), skip, limit)
  }

  /** A page holds stored rows only; a page from position 0 that is wide
      enough for the table holds every stored row. */
  lemma PageListsTheStore<T>(m: map<int, T>, skip: nat, limit: nat)
    ensures forall v | v in Page(m, skip, limit) :: v in m.Values
    ensures skip == 0 && |m| <= limit ==> forall k | k in m :: m[k] in Page(m, skip, limit)
  {
    RowsAreTheStore(m);
    if skip == 0 && |m| <= limit {
      Seqs.SliceWhole(Rows(m), limit);
    }
  }

  /** Reading page after page yields the listing without gaps or overlaps,
      and a page from zero wide enough for the table returns every row. */
  lemma PagesTile<T>(m: map<int, T>, skip: nat, a: nat, b: nat)
    ensures Page(m, skip, a) + Page(m, skip + a, b) == Page(m, skip, a + b)
    ensures |m| <= a ==> Page(m, 0, a) == Rows(m)
  {
    Seqs.SliceSplit(Rows(m), skip, a, b);
    if |m| <= a {
      Seqs.SliceWhole(Rows(m), a);
    }
  }

  /** The id SQLite gives a new row of a rowid table: one more than the
      largest id in use, or 1 when the table is empty. */
  function FreshId(s: set<int>): (r: int)
    ensures r !in s
    ensures forall k | k in s :: k < r
    ensures s == {} ==> r == 1
  {
    if s == {} then 1
    else
      var ks := SortedKeys(s);
      var top := ks[|ks| - 1];
      assert forall k | k in s :: k <= top by {
        forall k | k in s
          ensures k <= top
        {
          var i :| 0 <= i < |ks| && ks[i] == k;
        }
      }
      top + 1
  }

  /** Inserting a new key and removing it again gives back the table. */
  lemma RemoveAfterInsert<T>(m: map<int, T>, k: int, v: T)
    requires k !in m
    ensures m[k := v] - {k} == m
  {
  }

  /** `get_by_id`: the row stored under `id`, or nothing when there is none. */
  function Get<T>(m: map<int, T>, id: int): (r: Option<T>)
    ensures r.Some? <==> id in m
    ensures r.Some? ==> r.value == m[id]
  {
    if id in m then Some(m[id]) else None
  }

  /** `delete`: false for an unknown id; otherwise true, and the id is gone
      while every other row stays as it was. */
  function Remove<T>(m: map<int, T>, id: int): (r: (bool, map<int, T>))
    ensures r.0 <==> id in m
    ensures r.1.Keys == m.Keys - {id}
    ensures forall k | k in r.1 :: r.1[k] == m[k]
  {
    (id in m, m - {id})
  }

  /** Deleting twice: the second call reports false and changes nothing, and
      the deleted id reads as absent. */
  lemma RemoveTwice<T>(m: map<int, T>, id: int)
    ensures !Remove(Remove(m, id).1, id).0
    ensures Remove(Remove(m, id).1, id).1 == Remove(m, id).1
    ensures Get(Remove(m, id).1, id) == None
  {
  }
}

=== FILE: wrappers.dfy ===
/** Optional values: the model's counterpart of Python's `Optional[...]`,
    where `None` is the "not found" / "nothing to return" answer. */
module Wrappers {

  datatype Option<+T> = None | Some(value: T)
}
